=== FILE: README.md ===
# Multi-room chat relay: registry, broadcast and client display logic

This project models, in Dafny, the sequential core of a small TCP chat
relay written in C: a server (`main_server.c`) that keeps the connected
clients in a linked list with a per-room occupancy table, admits new
connections by room selector, and relays each chat line to the sender's
room-mates; and a client (`main_client.c`) that picks a room, judges the
server's welcome reply, sends typed lines, and colours received lines by
the sender's name.

The mutex that guards the server's list makes every registry call atomic,
so the server is modelled as pure state transformers over an immutable
state: the client list as a `seq<Client>` in insertion order, the counter
table `room_user_counts` as a 100-entry `seq<int>`, and the `next_room`
counter. Sockets are values: one `recv` is a `Recv` value and every
`send`/`close` an `Action` in the output of a step.

Modules, one per concern:

- `Options`, `Net`: the optional value, received chunks and socket actions.
- `CText`: `strchr`, `strcspn`-style cutting, NUL termination, `strstr`.
- `Decimal`: `%d` formatting and `atoi`, with the round trip between them.
- `Registry`: `add_tail`, `remove_client`, the counter invariant.
- `Relay`: `broadcast` — sender lookup, recipient choice, the `"[name] text\n"` line.
- `Rooms`: room-selector branches, the room listing, chat-line cutting, fixed replies.
- `Server`: `thread_main` as steps (connect, chat, disconnect) and runs of steps.
- `Colors`: `get_color_for_user`.
- `Display`: `print_colored_message`.
- `ClientFlow`: room choice, the `Error:` test, the blank-line rule of the input loop.

What the server checks, and what it does not:

- A join request is only range-checked (main_server.c:223). Any room
  1..100 is joined whether or not anyone is in it, and no "room not found"
  reply exists for an empty room. User names are never compared, so two
  clients in one room may share a name. `Server.AdmissionOutcomes` states
  this.
- Join and leave notices are sent with `broadcast(-1, ...)`. No registered
  socket is -1, so nobody receives them (`Relay.NoticeReachesNobody`).
- A new-room request takes a number from `next_room` before the server
  checks that a user name arrived. A request dropped at that point still
  uses up a room number.

## Model

| member | source | states |
|---|---|---|
| Registry.Initial | main_server.c:28-34 | the server starts with an empty list, every room counter 0 and `next_room` 1 |
| Registry.AddTail | main_server.c:75-99 | the new record is appended at the end. Earlier records keep their order. The counter of its room goes up by exactly one when the room is in 1..100. No other counter changes, and `next_room` is untouched |
| Registry.FirstIndex | main_server.c:104-108 | the walk from the head finds the first record with the given socket, or reports that none has it |
| Registry.RemoveClient | main_server.c:101-127 | only the first record with the socket is unlinked, and the others keep their relative order. Its room's counter drops by one and no other counter changes. Without a match, nothing changes |
| Registry.AddTailKeepsCounts | main_server.c:94-97 | after `add_tail` every room counter still equals the number of listed clients in that room, whatever room the new record names |
| Registry.RemoveClientKeepsCounts | main_server.c:109-112 | after `remove_client` every room counter still equals the number of listed clients in that room |
| Registry.ApplyOpsKeepsCounts | main_server.c:75-127 | under any sequence of `add_tail` and `remove_client` calls, counter `r - 1` equals the number of records in room `r` |
| Relay.ChatFormat | main_server.c:154 | the relayed line is `[`, the name, `]`, a space, the message and a newline, each at its stated position, and nothing else |
| Relay.FindSender | main_server.c:131-144 | the sender is the first record in list order with socket `fromfd`, and there is none exactly when no record has that socket |
| Relay.Recipients | main_server.c:148-158 | a record is a recipient exactly when it is in the list, its socket is not `fromfd` and its room is the sender's |
| Relay.Broadcast | main_server.c:129-161 | without a sender nothing is sent. Otherwise recipient `k`, in list order, gets exactly the sender's `"[name] message\n"` line |
| Relay.RecipientsAppend | main_server.c:148-158 | recipients follow list order: for two lists joined end to end, the recipients are the first list's followed by the second's |
| Relay.BroadcastTargets | main_server.c:146-158 | a socket gets the line exactly when it is not the sender's socket and some record with it is in the sender's room. Every action is a send to a socket other than the sender's |
| Relay.NoticeReachesNobody | main_server.c:249-251 | with all registered sockets non-negative, `broadcast(-1, ...)` sends nothing, so join and leave notices reach no one |
| Rooms.Classify | main_server.c:180-230 | -2 lists rooms. Any other negative value asks for a new room. 0 or a value above 100 is an error. 1..100 joins that very room |
| Rooms.OccupiedFrom | main_server.c:185-194 | the listing scan reports exactly the rooms with a positive counter, each with its counter value, in strictly increasing room order |
| Rooms.NoneOccupied | main_server.c:183-199 | the scan finds nothing exactly when no counter is positive |
| Rooms.ListingText | main_server.c:180-199 | the reply is exactly the "No rooms available" line when no counter is positive. Otherwise it is the header followed by one `Room %d: %d people` line per occupied room |
| Rooms.ListingMatchesRegistry | main_server.c:184-194 | when the counters match the list, the listing names exactly the occupied rooms 1..100, each with its number of clients. It is the "No rooms" line exactly when none of those rooms has a client |
| Rooms.ChatText | main_server.c:257-262 | the broadcast text is a prefix of the received bytes that is free of newline and NUL. It stops at the first newline or NUL, or at the end when the bytes hold neither |
| Rooms.ChatRound | main_server.c:257-263 | the chat loop as written: the read overwrites only the first bytes of the reused buffer. The broadcast text is that buffer's prefix up to its first newline or NUL. The buffer left for the next read is the same buffer with a NUL written where the text stops, and no other byte changed |
| Rooms.StaleBytesLeak | main_server.c:257-263 | whatever the uninitialised buffer held, a `hello` line followed by a read carrying only `hi` is broadcast by the code as written as `hello`, then `hillo`. The corrected `ChatText` gives `hi` |
| Rooms.ChatRoundWithNewline | main_server.c:257-263 | for any read that carries its own newline, the code as written and `ChatText` broadcast the same text |
| Server.Step | main_server.c:169-275 | a step takes a room number from `next_room` exactly when it is a connection with a new-room selector, and then advances it by one |
| Server.Run | main_server.c:169-275 | `next_room` never decreases over a run of steps |
| Server.StepKeepsInv | main_server.c:169-275 | each step keeps the counters equal to room occupancy, `next_room` positive and every registered socket non-negative |
| Server.RunKeepsInv | main_server.c:84-127 | over any run of well-defined steps, each room's counter equals the number of clients in that room at every point |
| Server.AllocationsIncrease | main_server.c:208-214 | new room numbers come out strictly increasing. They start at the initial `next_room` and stay below its final value, so none is given twice |
| Server.AdmissionOutcomes | main_server.c:180-246 | -2 gets the listing and a close. 0 or above 100 gets `Error: Room does not exist` and a close. A new-room request whose name never arrives still uses up `next_room`. A valid request appends the client (name cut at NUL) in the chosen room, even if the room is empty or the name is taken, and gets only the welcome line |
| Server.ChatOutcome | main_server.c:257-264 | a chat line from a registered socket goes out only as that sender's `"[name] line\n"` with the line cut at its newline, never to the sender. From an unregistered socket nothing goes out. The registry does not change |
| Server.DisconnectOutcome | main_server.c:266-272 | a disconnect removes the connection's record and closes its socket, and the leave notice reaches no one |
| CText.IndexOf | main_client.c:64-65 | `strchr` finds the first occurrence: the position holds the character, no earlier position does, and there is no result exactly when the character is absent |
| CText.ContainsIff | main_client.c:235 | the `strstr` scan succeeds exactly when the pattern occurs at some position of the text |
| Decimal.AtoiIntToString | main_client.c:199 | `atoi` reads back every integer that `%d` writes, negative ones included |
| Decimal.AtoiReadsDigits | main_client.c:199 | `atoi` of any leading white space, then one or more digits, then anything not starting with a digit, is the value of those digits |
| Decimal.AtoiReadsMinus | main_client.c:199 | the same after white space and a minus sign gives the value negated |
| Decimal.AtoiReadsPlus | main_client.c:199 | the same after white space and a plus sign gives the value itself |
| Colors.Lookup | main_client.c:46-52 | the scan returns the first entry with the name, or none exactly when no entry has it |
| Colors.GetColor | main_client.c:44-60 | a known name gets its stored colour and the table is unchanged. An unseen name, when the table has room, gets `color_palette[count % 12]` and the table grows by that one entry. When the table is full, an unseen name gets `RESET` and the table is unchanged |
| Colors.ResetOnlyWhenFull | main_client.c:53-59 | `RESET` is returned exactly when the name is unseen and the table holds 100 entries |
| Colors.GetColorKeepsValid | main_client.c:41-57 | the table never exceeds 100 entries, entry `i` keeps palette colour `i % 12`, and no name appears twice |
| Colors.GetColorIdempotent | main_client.c:46-52 | a second call with the same name returns the same colour and leaves the table as the first call left it |
| Colors.ColorIsStable | main_client.c:44-60 | once a name has an entry, whatever names are looked up later, it still gets the same colour without changing the table |
| Display.ExtractNameIff | main_client.c:64-72 | the extracted name is `name` exactly when `name` lies strictly between the first `[` and the first `]`, with that `]` after that `[` |
| Display.NoNameWithoutBrackets | main_client.c:64-84 | a received text lacking `[` or `]` has no name. It is shown exactly as received, and the colour table is unchanged |
| Display.ExtractChatName | main_client.c:64-72 | from the server's `"[name] message\n"` line the client reads back `name`, for any name without `]` and any message |
| Display.ShowMessage | main_client.c:62-85 | a line is coloured exactly when a name can be extracted. The colour and the new table are those of `get_color_for_user` for that name, and the shown text is the line up to its first newline, or all of it when it has none. Otherwise the text is shown as received and the table is unchanged |
| Display.ShowChatLine | main_client.c:74-79 | a relayed chat line is shown whole, minus its newline, in the colour the table gives its sender |
| ClientFlow.ChoiceReadByAtoi | main_client.c:190-216 | a choice other than `new` without a newline of its own, typed with its newline or passed as the argument, becomes the `atoi` value of its text |
| ClientFlow.TypedDigitsAsTheServerReadsThem | main_client.c:190-216 | a choice typed or passed as blanks, digits and then anything not starting with a digit (` 5`, `05`, `5abc`) reaches the server as the value of its digits |
| ClientFlow.NumbersAsTheServerReadsThem | main_client.c:196-216 | any number in the form `%d` writes it, typed (with its newline) or passed as the room argument, reaches the server as that number, so it is classified as the number itself: -2 lists, other negatives ask for a new room, 0 or above 100 is a bad room, 1..100 joins |
| ClientFlow.ChoicesAsTheServerReadsThem | main_client.c:196-216 | typing `new` after the listing, or passing `new` as the room argument, makes the server allocate a room |
| ClientFlow.MoreArgsNewRoom | main_client.c:158-221 | with more than one argument after the host, whatever they are, the selector is -1 and the server allocates a new room |
| ClientFlow.ListedRoomJoins | main_client.c:196-216 | typing back or passing a room number 1..100 from the listing joins that very room |
| ClientFlow.WordIsBadRoom | main_client.c:196-216 | a word other than `new` that does not start with a blank, a digit or a sign reads as 0, a bad room, whether typed with or without its newline or passed as the argument |
| ClientFlow.OutgoingText | main_client.c:138-139 | any one-character `fgets` result (a bare newline, or a last line of one character without a newline) goes out as the empty string. The text is empty exactly when the line has length at most 1, and otherwise is the line itself |
| ClientFlow.Transmitted | main_client.c:133-147 | the input loop sends each line unchanged, up to and not including the first line of length at most 1, whose empty send ends the loop |
| ClientFlow.WelcomeVerdict | main_client.c:231-241 | the client gives up exactly when a reply arrived and its text contains `Error:` at some position. A reply that never arrives does not stop it |
| ClientFlow.RoomErrorAborts | main_client.c:235-238 | the server's `Error: Room does not exist` reply ends the client |
| ClientFlow.WelcomeProceeds | main_client.c:233-241 | the server's welcome line never ends the client, for any address text without `:` or NUL |

## Left out

- Sockets, `bind`/`listen`/`accept`/`connect`, threads, `pthread_detach`/`cancel`/`join`, `usleep`: each `recv` is one `Recv` value and each `send`/`close` one `Action`. Partial reads and several messages in one read are not modelled. Each chunk is one message, as the code assumes.
- The mutex: every registry call is one atomic step. Interleavings between threads are not modelled.
- `send_room_list` (main_server.c:36-73): never called, and its loop bound `max_room - 100` never lets it run. It sends nothing.
- `active_rooms` (main_server.c:34, 213): written, never read. Its overflow after 100 new rooms is excluded by the precondition `next_room <= 100` in `Server.EventOk`.
- `inet_ntoa`: the client address is an opaque text parameter.
- Terminal output: `printf`, the prompts, the ANSI escape bytes (colours are the abstract `Color` values), and the `error()` exits.
- File transfer: neither C file contains any code for sending files, keeping a file registry or length-prefixed framing, so there is nothing to model.
- Undefined behaviour in the C is stated as preconditions, not reproduced. The user name read must leave room for its NUL, so `uname[n]` needs `n < 50`. A new-room request needs `next_room <= 100`. A chat read returns 1..255 bytes. The chat loop's use of a buffer that is never cleared is recorded under Findings and in the `Server.ChatOutcome` line below. A client receive buffer holds fewer than 512 bytes. An extracted name is shorter than 50 characters.
- Rooms.ListingText: the C builds the listing in a 1024-byte buffer with `strcat`. The model gives the whole text and does not model the overflow a very long listing would cause.
- Decimal.Atoi: integers are unbounded. The C `int` overflow of `atoi` on more than nine or ten digits, which is undefined, is not modelled.
- Rooms.ChatRound: when the reused buffer holds no newline or NUL at all, the C scan runs past the buffer. The model stops the scan at the buffer's end instead.
- Server.ChatOutcome: the server steps (`Server.Step`, `Server.Run`) broadcast the corrected `Rooms.ChatText` of each read, not the as-written cut of the reused buffer. The two agree whenever the read carries its newline (`Rooms.ChatRoundWithNewline`). For a read without one, the code as written can also send stale bytes of earlier reads (`Rooms.StaleBytesLeak`), and the step model does not show this.
- The client's `choice[20]` and `uname[50]` `fgets` limits are not modelled. Lines are taken as `fgets` returned them.

## Findings

| source | as written | input that shows it | evidently intended | confidence | as-written member | corrected member |
|---|---|---|---|---|---|---|
| main_server.c:257-263 | each `recv` overwrites only the first `n` bytes of a 256-byte buffer that is never cleared. The cut then looks for the first newline or NUL in the whole buffer, so bytes left over from an earlier, longer message are broadcast when a read carries no newline | whatever the buffer held before, a `hello` line, then a read that returns `hi` without a newline (the client's last input line when it lacks one, or a newline still in transit). The room gets `[name] hillo` | broadcast exactly the bytes of this read, up to its first newline | medium, not executed | Rooms.StaleBytesLeak | Rooms.ChatText |

=== FILE: broadcast.dfy ===
/** `broadcast` in main_server.c: find the sender's record, then send
    `"[name] message\n"` to every other record in the sender's room, in
    list order. */
module Relay {
  import opened Options
  import opened Net
  import opened Registry

  /** The line `sprintf(buffer, "[%s] %s\n", name, message)` produces. */
  function ChatFormat(name: string, message: string): (r: string)
    ensures |r| == |name| + |message| + 4
    ensures r[0] == '[' && r[1..|name| + 1] == name && r[|name| + 1] == ']' && r[|name| + 2] == ' '
    ensures r[|name| + 3..|r| - 1] == message && r[|r| - 1] == '\n'
  {
    "[" + name + "] " + message + "\n"
  }

  /** The sender: the first record whose socket is `fromfd`, if any. */
  function FindSender(cs: seq<Client>, fromfd: int): (r: Option<Client>)
    ensures r.None? <==> forall c :: c in cs ==> c.sock != fromfd
    ensures r.Some? ==> exists i :: 0 <= i < |cs| && cs[i] == r.value && r.value.sock == fromfd &&
                          forall j :: 0 <= j < i ==> cs[j].sock != fromfd
  {
    match FirstIndex(cs, fromfd)
    case None => None
    case Some(i) => Some(cs[i])
  }

  /** The records the second walk selects: socket other than `fromfd` and
      room equal to `room`, in list order. */
  function Recipients(cs: seq<Client>, fromfd: int, room: int): (r: seq<Client>)
    ensures |r| <= |cs|
    ensures forall c :: c in r <==> c in cs && c.sock != fromfd && c.room == room
    decreases |cs|
  {
    if |cs| == 0 then []
    else
      var rest := Recipients(cs[1..], fromfd, room);
      assert forall c :: c in cs <==> c == cs[0] || c in cs[1..];
      if cs[0].sock != fromfd && cs[0].room == room then [cs[0]] + rest else rest
  }

  /** The sends one `broadcast(fromfd, message)` call makes. */
  function Broadcast(cs: seq<Client>, fromfd: int, message: string): (out: seq<Action>)
    ensures FindSender(cs, fromfd).None? ==> out == []
    ensures FindSender(cs, fromfd).Some? ==>
              var sender := FindSender(cs, fromfd).value;
              var targets := Recipients(cs, fromfd, sender.room);
              && |out| == |targets|
              && forall k :: 0 <= k < |out| ==>
                   out[k] == Send(targets[k].sock, ChatFormat(sender.name, message))
  {
    match FindSender(cs, fromfd)
    case None => []
    case Some(sender) =>
      var targets := Recipients(cs, fromfd, sender.room);
      seq(|targets|, k requires 0 <= k < |targets| => Send(targets[k].sock, ChatFormat(sender.name, message)))
  }

  /** Recipient selection respects list order: the recipients of a
      concatenated list are those of the first part followed by those of
      the second. */
  lemma {:induction false} RecipientsAppend(a: seq<Client>, b: seq<Client>, fromfd: int, room: int)
    ensures Recipients(a + b, fromfd, room) == Recipients(a, fromfd, room) + Recipients(b, fromfd, room)
    decreases |a|
  {
    if |a| == 0 {
      assert a + b == b;
    } else {
      assert (a + b)[1..] == a[1..] + b;
      RecipientsAppend(a[1..], b, fromfd, room);
    }
  }

  /** A socket receives the broadcast exactly when some record with that
      socket is in the sender's room and is not the sender's socket; the
      sender itself never receives it. */
  lemma BroadcastTargets(cs: seq<Client>, fromfd: int, message: string, sock: int)
    requires FindSender(cs, fromfd).Some?
    ensures var sender := FindSender(cs, fromfd).value;
            Send(sock, ChatFormat(sender.name, message)) in Broadcast(cs, fromfd, message)
            <==> sock != fromfd && exists c :: c in cs && c.sock == sock && c.room == sender.room
    ensures forall a :: a in Broadcast(cs, fromfd, message) ==> a.Send? && a.sock != fromfd
  {
    var sender := FindSender(cs, fromfd).value;
    var targets := Recipients(cs, fromfd, sender.room);
    var out := Broadcast(cs, fromfd, message);
    var line := ChatFormat(sender.name, message);
    if Send(sock, line) in out {
      var k :| 0 <= k < |out| && out[k] == Send(sock, line);
      assert targets[k] in targets;
    }
    if sock != fromfd && exists c :: c in cs && c.sock == sock && c.room == sender.room {
      var c :| c in cs && c.sock == sock && c.room == sender.room;
      assert c in targets;
      var k :| 0 <= k < |targets| && targets[k] == c;
      assert out[k] == Send(sock, line);
    }
    forall a | a in out
      ensures a.Send? && a.sock != fromfd
    {
      var k :| 0 <= k < |out| && out[k] == a;
      assert targets[k] in targets;
    }
  }

  /** The join and leave notices go out as `broadcast(-1, ...)`; since every
      registered socket is an `accept` result (never negative), no record
      is the sender and nobody receives them. */
  lemma NoticeReachesNobody(cs: seq<Client>, message: string)
    requires forall c :: c in cs ==> c.sock >= 0
    ensures Broadcast(cs, -1, message) == []
  {
  }
}

=== FILE: clientflow.dfy ===
/** The client's side of the handshake and its input loop (`main` and
    `thread_main_send` in main_client.c): which room selector is sent, how
    the welcome reply is judged, and which typed lines go out. */
module ClientFlow {
  import opened Net
  import opened CText
  import opened Decimal
  import opened Rooms

  /** The room a typed choice selects: the line as `fgets` read it, cut at
      its newline, is `"new"` for a new room and otherwise read by `atoi`. */
  function RoomChoice(line: string): int
  {
    var choice := CutAt(line, '\n');
    if choice == "new" then -1 else Atoi(choice)
  }

  /** The room given as the second command-line argument. */
  function ArgRoom(arg: string): int {
    if arg == "new" then -1 else Atoi(arg)
  }

  /** The selector the client joins with: from the typed choice after a
      listing, from the room argument, or -1 when there are further
      arguments.  `extra` is `argv[2..]`. */
  function JoinSelector(extra: seq<string>, typed: string): int
  {
    if |extra| == 0 then RoomChoice(typed)
    else if |extra| == 1 then ArgRoom(extra[0])
    else -1
  }

  /** A number the client types or passes as its room argument reaches
      the server as that very number, so the server treats the choice as it
      would treat the number itself: -2 lists rooms, any other negative
      asks for a new room, 0 or above 100 is a bad room, 1..100 joins. */
  lemma NumbersAsTheServerReadsThem(n: int)
    ensures RoomChoice(IntToString(n) + "\n") == n
    ensures ArgRoom(IntToString(n)) == n
    ensures Classify(JoinSelector([], IntToString(n) + "\n")) == Classify(n)
    ensures Classify(JoinSelector([IntToString(n)], "")) == Classify(n)
  {
    var digits := IntToString(n);
    var line := digits + "\n";
    assert '\n' !in digits;
    assert line[|digits|] == '\n' && line[..|digits|] == digits;
    assert CutAt(line, '\n') == digits;
    assert digits != "new" by {
      assert digits[0] == '-' || IsDigit(digits[0]);
    }
    AtoiIntToString(n);
  }

  /** A choice other than `new` with no newline of its own, typed with its
      newline or passed as the argument, is read by `atoi`. */
  lemma ChoiceReadByAtoi(text: string)
    requires '\n' !in text && text != "new"
    ensures RoomChoice(text + "\n") == Atoi(text)
    ensures ArgRoom(text) == Atoi(text)
  {
    var line := text + "\n";
    assert line[|text|] == '\n' && line[..|text|] == text;
    assert CutAt(line, '\n') == text;
  }

  /** A digit string holds no newline. */
  lemma DigitsHaveNoNewline(digits: string)
    requires AllDigits(digits)
    ensures '\n' !in digits
  {
    if '\n' in digits {
      var i :| 0 <= i < |digits| && digits[i] == '\n';
      assert IsDigit(digits[i]);
    }
  }

  /** A choice typed as blanks, digits and then anything else that does
      not start with a digit (the whole line free of newlines before its
      own) reaches the server as the value of the digits, as does the same
      text passed as the room argument. */
  lemma TypedDigitsAsTheServerReadsThem(ws: string, digits: string, rest: string)
    requires forall i :: 0 <= i < |ws| ==> IsSpace(ws[i])
    requires |digits| > 0 && AllDigits(digits)
    requires |rest| == 0 || !IsDigit(rest[0])
    requires '\n' !in ws && '\n' !in rest
    ensures RoomChoice(ws + (digits + rest) + "\n") == DigitsValue(digits)
    ensures ArgRoom(ws + (digits + rest)) == DigitsValue(digits)
  {
    var text := ws + (digits + rest);
    DigitsHaveNoNewline(digits);
    assert '\n' !in text;
    assert text != "new" by {
      if |ws| > 0 {
        assert IsSpace(text[0]);
      } else {
        assert text[0] == digits[0];
      }
    }
    ChoiceReadByAtoi(text);
    AtoiReadsDigits(ws, digits, rest);
  }

  /** A word that does not start with a blank, a digit or a sign reads as
      0, a bad room, whether it is typed (with or without its newline) or
      passed as the room argument. */
  lemma WordIsBadRoom(word: string)
    requires word != "new" && |word| > 0 && !IsSpace(word[0]) && !IsDigit(word[0])
    requires word[0] != '-' && word[0] != '+' && '\n' !in word
    ensures Classify(JoinSelector([], word + "\n")) == BadRoom
    ensures Classify(JoinSelector([], word)) == BadRoom
    ensures Classify(JoinSelector([word], "")) == BadRoom
  {
    var typed := word + "\n";
    assert typed[|word|] == '\n' && typed[..|word|] == word;
    assert CutAt(typed, '\n') == word;
    assert CutAt(word, '\n') == word;
    assert SkipSpace(word) == word;
  }

  /** With more than one argument after the host the client always asks
      for a new room, whatever those arguments and any typed line are. */
  lemma MoreArgsNewRoom(extra: seq<string>, typed: string)
    requires |extra| > 1
    ensures JoinSelector(extra, typed) == -1
    ensures Classify(JoinSelector(extra, typed)) == NewRoom
  {
  }

  /** Typing or passing `new` asks the server for a new room. */
  lemma ChoicesAsTheServerReadsThem()
    ensures Classify(JoinSelector([], "new\n")) == NewRoom
    ensures Classify(JoinSelector(["new"], "")) == NewRoom
  {
    var nl := "new\n";
    assert nl[3] == '\n' && nl[..3] == "new";
    IndexOfIs(nl, '\n', 3);
    assert RoomChoice(nl) == -1;
    assert JoinSelector([], nl) == -1;
    assert JoinSelector(["new"], "") == -1;
  }

  /** Typing back or passing a room number from the listing joins that
      very room. */
  lemma ListedRoomJoins(room: int)
    requires 1 <= room <= Registry.MaxRooms
    ensures Classify(JoinSelector([], IntToString(room) + "\n")) == JoinRoom(room)
    ensures Classify(JoinSelector([IntToString(room)], "")) == JoinRoom(room)
  {
    NumbersAsTheServerReadsThem(room);
  }

  /** The text `thread_main_send` sends for one `fgets` line: a line of
      length 1 (a bare newline) goes out as the empty string. */
  function OutgoingText(line: string): (r: string)
    ensures r == "" <==> |line| <= 1
    ensures r != "" ==> r == line
  {
    if |line| == 1 then "" else line
  }

  /** The texts the input loop sends before it stops: each line goes out
      as it is until the first line of length at most 1, whose empty send
      ends the loop. */
  function Transmitted(lines: seq<string>): (r: seq<string>)
    ensures |r| <= |lines|
    ensures forall k :: 0 <= k < |r| ==> r[k] == lines[k] && |lines[k]| > 1
    ensures |r| < |lines| ==> |lines[|r|]| <= 1
    decreases |lines|
  {
    if |lines| == 0 then []
    else
      var text := OutgoingText(lines[0]);
      if text == "" then [] else [text] + Transmitted(lines[1..])
  }

  /** `strstr(welcome, "Error:") != NULL`. */
  predicate IsErrorReply(reply: string) {
    Contains(reply, "Error:")
  }

  datatype Verdict = Abort | Proceed

  /** The client's reading of the reply to its user name: a reply whose
      text contains `Error:` anywhere ends the client; a reply that never
      arrives does not. */
  function WelcomeVerdict(reply: Recv): (v: Verdict)
    ensures v == Abort <==> reply.Data? && exists i :: 0 <= i <= |CString(reply.bytes)| && "Error:" <= CString(reply.bytes)[i..]
  {
    match reply
    case Closed => Proceed
    case Data(bytes) =>
      ContainsIff(CString(bytes), "Error:");
      if IsErrorReply(CString(bytes)) then Abort else Proceed
  }

  /** The server's room error ends the client. */
  lemma RoomErrorAborts()
    ensures WelcomeVerdict(Data(RoomError)) == Abort
  {
    var e := "Error:";
    var rest := " Room does not exist\n";
    assert RoomError == "Error: Room does not exist\n";
    assert RoomError == e + rest;
    assert '\0' !in e && '\0' !in rest;
    assert CString(RoomError) == RoomError;
    assert e <= RoomError;
    assert IsErrorReply(RoomError);
  }

  /** The server's welcome line, for an address text without `:` or NUL,
      does not end the client. */
  lemma WelcomeProceeds(addr: string, room: int)
    requires ':' !in addr && '\0' !in addr
    ensures WelcomeVerdict(Data(Welcome(addr, room))) == Proceed
  {
    var digits := IntToString(room);
    assert ':' !in digits && '\0' !in digits;
    var p1 := "Connected to ";
    var p2 := " with new room number ";
    assert ':' !in p1 && '\0' !in p1;
    assert ':' !in p2 && '\0' !in p2;
    var w := Welcome(addr, room);
    assert w == p1 + addr + p2 + digits + "\n";
    assert ':' !in w && '\0' !in w;
    AbsentCharNoMatch(w, "Error:", 5);
  }
}

=== FILE: colors.dfy ===
/** `get_color_for_user` in main_client.c: a table of at most 100 names,
    each given the next palette colour, round-robin, the first time it is
    seen. */
module Colors {
  import opened Options

  /** The twelve palette colours and `RESET` (the terminal escape bytes are
      left out; only which colour is meant matters). */
  datatype Color =
    | Red | Green | Yellow | Blue | Magenta | Cyan
    | BrightRed | BrightGreen | BrightYellow | BrightBlue | BrightMagenta | BrightCyan
    | Reset

  /** `color_palette`, in its declared order. */
  const Palette: seq<Color> :=
    [Red, Green, Yellow, Blue, Magenta, Cyan,
     BrightRed, BrightGreen, BrightYellow, BrightBlue, BrightMagenta, BrightCyan]

  /** The size of `user_colors`. */
  const Capacity: nat := 100

  /** One `UserColor` entry. */
  datatype UserColor = UserColor(name: string, color: Color)

  /** The first entry named `name`, as the `strcmp` loop finds it. */
  function Lookup(t: seq<UserColor>, name: string): (r: Option<nat>)
    ensures r.None? <==> forall j :: 0 <= j < |t| ==> t[j].name != name
    ensures r.Some? ==> r.value < |t| && t[r.value].name == name
    ensures r.Some? ==> forall j :: 0 <= j < r.value ==> t[j].name != name
  {
    if |t| == 0 then None
    else if t[0].name == name then Some(0)
    else
      match Lookup(t[1..], name)
      case None => None
      case Some(i) => Some(i + 1)
  }

  /** The table as the code keeps it: within capacity, entry `i` holding
      palette colour `i % 12`, and no name twice. */
  predicate Valid(t: seq<UserColor>) {
    && |t| <= Capacity
    && (forall i :: 0 <= i < |t| ==> t[i].color == Palette[i % |Palette|])
    && (forall i, j :: 0 <= i < j < |t| ==> t[i].name != t[j].name)
  }

  /** `get_color_for_user`: the colour for `name` and the table afterwards.
      A known name keeps its colour; an unseen name takes the next palette
      colour if there is room; otherwise the answer is `Reset`. */
  function GetColor(t: seq<UserColor>, name: string): (r: (Color, seq<UserColor>))
    ensures Lookup(t, name).Some? ==> r == (t[Lookup(t, name).value].color, t)
    ensures Lookup(t, name).None? && |t| < Capacity ==>
              r.0 == Palette[|t| % |Palette|] && r.1 == t + [UserColor(name, r.0)]
    ensures Lookup(t, name).None? && |t| >= Capacity ==> r == (Reset, t)
  {
    match Lookup(t, name)
    case Some(i) => (t[i].color, t)
    case None =>
      if |t| < Capacity then
        var c := Palette[|t| % |Palette|];
        (c, t + [UserColor(name, c)])
      else (Reset, t)
  }

  /** `Reset` is never a palette colour, so it is returned exactly when the
      name is unseen and the table is full. */
  lemma ResetOnlyWhenFull(t: seq<UserColor>, name: string)
    requires Valid(t)
    ensures GetColor(t, name).0 == Reset <==> Lookup(t, name).None? && |t| == Capacity
  {
    assert Reset !in Palette;
    if Lookup(t, name).Some? {
      var i := Lookup(t, name).value;
      assert t[i].color == Palette[i % |Palette|];
    } else if |t| < Capacity {
      assert Palette[|t| % |Palette|] in Palette;
    }
  }

  /** The table stays valid: never more than 100 entries, colours assigned
      round-robin by position, names distinct. */
  lemma GetColorKeepsValid(t: seq<UserColor>, name: string)
    requires Valid(t)
    ensures Valid(GetColor(t, name).1)
  {
  }

  /** Asking twice is asking once: the second call returns the same colour
      and leaves the table as the first call left it. */
  lemma GetColorIdempotent(t: seq<UserColor>, name: string)
    ensures var (c, t') := GetColor(t, name); GetColor(t', name) == (c, t')
  {
    var (c, t') := GetColor(t, name);
    if Lookup(t, name).None? && |t| < Capacity {
      assert forall j :: 0 <= j < |t| ==> t'[j] == t[j];
      assert t'[|t|].name == name;
      assert Lookup(t', name) == Some(|t|);
    }
  }

  /** Appending entries does not change where an entry already present is found. */
  lemma {:induction false} LookupExtend(t: seq<UserColor>, u: seq<UserColor>, name: string)
    requires Lookup(t, name).Some?
    ensures Lookup(t + u, name) == Lookup(t, name)
    decreases |t|
  {
    if t[0].name != name {
      assert (t + u)[1..] == t[1..] + u;
      LookupExtend(t[1..], u, name);
    }
  }

  /** The table after looking up each of `names` in turn. */
  function ColorAll(t: seq<UserColor>, names: seq<string>): (r: seq<UserColor>)
    ensures t <= r
    decreases |names|
  {
    if |names| == 0 then t else ColorAll(GetColor(t, names[0]).1, names[1..])
  }

  /** Once a name has a colour it keeps it: whatever names are looked up
      afterwards, the name still gets the same colour and the lookup
      leaves the table unchanged. */
  lemma ColorIsStable(t: seq<UserColor>, name: string, later: seq<string>)
    requires Lookup(t, name).Some?
    ensures GetColor(ColorAll(t, later), name) == (GetColor(t, name).0, ColorAll(t, later))
  {
    var t' := ColorAll(t, later);
    assert t' == t + t'[|t|..];
    LookupExtend(t, t'[|t|..], name);
  }
}

=== FILE: ctext.dfy ===
/** The C string functions the chat code relies on (`strchr`, `strcspn`,
    `strstr`, and NUL termination), modelled on `seq<char>`. */
module CText {
  import opened Options

  /** `strchr`: the index of the first occurrence of `c` in `s`, if any. */
  function IndexOf(s: string, c: char): (r: Option<nat>)
    ensures r.None? <==> c !in s
    ensures r.Some? ==> r.value < |s| && s[r.value] == c && c !in s[..r.value]
  {
    if |s| == 0 then None
    else if s[0] == c then Some(0)
    else
      match IndexOf(s[1..], c)
      case None => None
      case Some(i) =>
        assert s[..i + 1] == [s[0]] + s[1..][..i];
        Some(i + 1)
  }

  /** `s[strcspn(s, "c")] = '\0'`: the longest prefix of `s` free of `c`. */
  function CutAt(s: string, c: char): (r: string)
    ensures r <= s
    ensures c !in r
    ensures |r| < |s| ==> s[|r|] == c
  {
    match IndexOf(s, c)
    case None => s
    case Some(i) => s[..i]
  }

  /** The text a C routine sees in a buffer: everything before the first NUL. */
  function CString(s: string): (r: string)
    ensures r <= s && '\0' !in r
    ensures |r| < |s| ==> s[|r|] == '\0'
    ensures '\0' !in s ==> r == s
  {
    CutAt(s, '\0')
  }

  /** A position holding `c` with no `c` before it is the one `strchr` finds. */
  lemma IndexOfIs(s: string, c: char, i: nat)
    requires i < |s| && s[i] == c && c !in s[..i]
    ensures IndexOf(s, c) == Some(i)
  {
  }

  /** `strstr(s, p) != NULL`, written as the scan `strstr` performs:
      does `p` start here, or anywhere further on? */
  predicate Contains(s: string, p: string)
    decreases |s|
  {
    p <= s || (|s| > 0 && Contains(s[1..], p))
  }

  /** An occurrence of `p` at position `i` is found by the scan. */
  lemma {:induction false} OccurrenceFound(s: string, p: string, i: nat)
    requires i <= |s| && p <= s[i..]
    ensures Contains(s, p)
    decreases i
  {
    if i == 0 {
      assert s[i..] == s;
    } else {
      assert s[1..][i - 1..] == s[i..];
      OccurrenceFound(s[1..], p, i - 1);
    }
  }

  /** When the scan succeeds it has found an occurrence of `p`. */
  lemma {:induction false} FoundOccurrence(s: string, p: string) returns (i: nat)
    requires Contains(s, p)
    ensures i <= |s| && p <= s[i..]
    decreases |s|
  {
    if p <= s {
      assert s[0..] == s;
      i := 0;
    } else {
      var j := FoundOccurrence(s[1..], p);
      assert s[1..][j..] == s[j + 1..];
      i := j + 1;
    }
  }

  /** `Contains` holds exactly when `p` occurs at some position of `s`. */
  lemma ContainsIff(s: string, p: string)
    ensures Contains(s, p) <==> exists i :: 0 <= i <= |s| && p <= s[i..]
  {
    if Contains(s, p) {
      var i := FoundOccurrence(s, p);
    }
    forall i | 0 <= i <= |s| && p <= s[i..]
      ensures Contains(s, p)
    {
      OccurrenceFound(s, p, i);
    }
  }

  /** A text without the character `c` contains no pattern that has a `c`. */
  lemma AbsentCharNoMatch(s: string, p: string, k: nat)
    requires k < |p| && p[k] !in s
    ensures !Contains(s, p)
  {
    if Contains(s, p) {
      var i := FoundOccurrence(s, p);
      assert false;
    }
  }
}

=== FILE: decimal.dfy ===
/** Decimal text: the `%d` conversion of `sprintf` and the C library's
    `atoi`, with the round trip that links them. */
module Decimal {

  predicate IsDigit(c: char) {
    '0' <= c <= '9'
  }

  predicate AllDigits(s: string) {
    forall i :: 0 <= i < |s| ==> IsDigit(s[i])
  }

  function DigitChar(d: nat): (c: char)
    requires d < 10
    ensures IsDigit(c) && c as int - '0' as int == d
  {
    ('0' as int + d) as char
  }

  function DigitValue(c: char): (d: nat)
    requires IsDigit(c)
    ensures d < 10 && DigitChar(d) == c
  {
    c as int - '0' as int
  }

  /** `%d` of a non-negative number: most significant digit first, no
      leading zeros. */
  function NatToString(n: nat): (r: string)
    ensures |r| > 0 && AllDigits(r)
    ensures |r| > 1 ==> r[0] != '0'
    decreases n
  {
    if n < 10 then [DigitChar(n)] else NatToString(n / 10) + [DigitChar(n % 10)]
  }

  /** `%d` of any `int`: a minus sign in front of a negative number. */
  function IntToString(i: int): (r: string)
    ensures |r| > 0 && (r[0] == '-' || IsDigit(r[0]))
    ensures forall k :: 0 <= k < |r| ==> r[k] == '-' || IsDigit(r[k])
  {
    if i < 0 then "-" + NatToString(-i) else NatToString(i)
  }

  /** The value of a digit string read left to right, as `atoi` accumulates it. */
  function DigitsValue(s: string): nat
    requires AllDigits(s)
  {
    if |s| == 0 then 0 else DigitsValue(s[..|s| - 1]) * 10 + DigitValue(s[|s| - 1])
  }

  /** Reading back the digits that `%d` wrote gives the number. */
  lemma {:induction false} NatRoundTrip(n: nat)
    ensures DigitsValue(NatToString(n)) == n
    decreases n
  {
    if n >= 10 {
      var s := NatToString(n);
      var a := NatToString(n / 10);
      assert s == a + [DigitChar(n % 10)];
      assert s[..|s| - 1] == a;
      NatRoundTrip(n / 10);
    }
  }

  /** The longest run of digits at the start of `s`: where `atoi` stops. */
  function LeadingDigits(s: string): (r: string)
    ensures r <= s && AllDigits(r)
    ensures |r| < |s| ==> !IsDigit(s[|r|])
  {
    if |s| > 0 && IsDigit(s[0]) then [s[0]] + LeadingDigits(s[1..]) else []
  }

  /** `isspace` in the C locale. */
  predicate IsSpace(c: char) {
    c == ' ' || c == '\t' || c == '\n' || c == 11 as char || c == 12 as char || c == '\r'
  }

  /** The text after the leading white space that `atoi` skips. */
  function SkipSpace(s: string): (r: string)
    ensures |r| <= |s| && r == s[|s| - |r|..]
    ensures forall i :: 0 <= i < |s| - |r| ==> IsSpace(s[i])
    ensures |r| > 0 ==> !IsSpace(r[0])
  {
    if |s| > 0 && IsSpace(s[0]) then SkipSpace(s[1..]) else s
  }

  /** `atoi`: optional white space, an optional sign, then as many digits as
      follow; a text with no digits there reads as 0. */
  function Atoi(s: string): (r: int)
    ensures var t := SkipSpace(s);
            (|t| == 0 || (t[0] != '-' && t[0] != '+')) && !(|t| > 0 && IsDigit(t[0])) ==> r == 0
  {
    var t := SkipSpace(s);
    if |t| > 0 && t[0] == '-' then 0 - DigitsValue(LeadingDigits(t[1..])) as int
    else if |t| > 0 && t[0] == '+' then DigitsValue(LeadingDigits(t[1..]))
    else DigitsValue(LeadingDigits(t))
  }

  /** Leading white space is skipped up to the first other character. */
  lemma {:induction false} SkipSpaceOver(ws: string, t: string)
    requires forall i :: 0 <= i < |ws| ==> IsSpace(ws[i])
    requires |t| > 0 && !IsSpace(t[0])
    ensures SkipSpace(ws + t) == t
    decreases |ws|
  {
    if |ws| == 0 {
      assert ws + t == t;
    } else {
      assert (ws + t)[1..] == ws[1..] + t;
      SkipSpaceOver(ws[1..], t);
    }
  }

  /** The digit run ends where the first non-digit begins. */
  lemma {:induction false} LeadingDigitsOver(digits: string, rest: string)
    requires AllDigits(digits)
    requires |rest| == 0 || !IsDigit(rest[0])
    ensures LeadingDigits(digits + rest) == digits
    decreases |digits|
  {
    if |digits| == 0 {
      assert digits + rest == rest;
    } else {
      assert (digits + rest)[1..] == digits[1..] + rest;
      LeadingDigitsOver(digits[1..], rest);
      assert digits == [digits[0]] + digits[1..];
    }
  }

  /** `atoi` of `s` once white space is skipped and a minus sign is found. */
  lemma AtoiMinusFirst(s: string, t: string)
    requires SkipSpace(s) == t && |t| > 0 && t[0] == '-'
    ensures Atoi(s) == 0 - DigitsValue(LeadingDigits(t[1..]))
  {
  }

  /** `atoi` of `s` once white space is skipped and a plus sign is found. */
  lemma AtoiPlusFirst(s: string, t: string)
    requires SkipSpace(s) == t && |t| > 0 && t[0] == '+'
    ensures Atoi(s) == DigitsValue(LeadingDigits(t[1..]))
  {
  }

  /** `atoi` of `s` once white space is skipped and a digit is found. */
  lemma AtoiDigitFirst(s: string, t: string)
    requires SkipSpace(s) == t && |t| > 0 && IsDigit(t[0])
    ensures Atoi(s) == DigitsValue(LeadingDigits(t))
  {
    assert t[0] != '-' && t[0] != '+';
  }

  /** `atoi` of white space, digits, then anything not starting with a
      digit: the value of the digits. */
  lemma AtoiReadsDigits(ws: string, digits: string, rest: string)
    requires forall i :: 0 <= i < |ws| ==> IsSpace(ws[i])
    requires |digits| > 0 && AllDigits(digits)
    requires |rest| == 0 || !IsDigit(rest[0])
    ensures Atoi(ws + (digits + rest)) == DigitsValue(digits)
  {
    var t := digits + rest;
    assert t[0] == digits[0] && !IsSpace(t[0]);
    SkipSpaceOver(ws, t);
    LeadingDigitsOver(digits, rest);
    AtoiDigitFirst(ws + t, t);
  }

  /** The same for a text `t` that is a minus sign, digits, then anything
      not starting with a digit: the value negated. */
  lemma AtoiReadsMinus(ws: string, t: string, digits: string, rest: string)
    requires forall i :: 0 <= i < |ws| ==> IsSpace(ws[i])
    requires |t| > 0 && t[0] == '-' && t[1..] == digits + rest
    requires |digits| > 0 && AllDigits(digits)
    requires |rest| == 0 || !IsDigit(rest[0])
    ensures Atoi(ws + t) == 0 - DigitsValue(digits)
  {
    SkipSpaceOver(ws, t);
    LeadingDigitsOver(digits, rest);
    AtoiMinusFirst(ws + t, t);
  }

  /** The same after a plus sign: the value itself. */
  lemma AtoiReadsPlus(ws: string, t: string, digits: string, rest: string)
    requires forall i :: 0 <= i < |ws| ==> IsSpace(ws[i])
    requires |t| > 0 && t[0] == '+' && t[1..] == digits + rest
    requires |digits| > 0 && AllDigits(digits)
    requires |rest| == 0 || !IsDigit(rest[0])
    ensures Atoi(ws + t) == DigitsValue(digits)
  {
    SkipSpaceOver(ws, t);
    LeadingDigitsOver(digits, rest);
    AtoiPlusFirst(ws + t, t);
  }

  lemma AllDigitsLeading(s: string)
    requires AllDigits(s)
    ensures LeadingDigits(s) == s
  {
  }

  /** `atoi` reads back what `%d` wrote, for every integer. */
  lemma AtoiIntToString(i: int)
    ensures Atoi(IntToString(i)) == i
  {
    var s := IntToString(i);
    assert !IsSpace(s[0]);
    assert SkipSpace(s) == s;
    if i < 0 {
      var d := NatToString(-i);
      assert s[1..] == d;
      AllDigitsLeading(d);
      NatRoundTrip(-i);
    } else {
      var d := NatToString(i);
      assert s == d && s[0] != '-' && s[0] != '+';
      AllDigitsLeading(d);
      NatRoundTrip(i);
    }
  }
}

=== FILE: display.dfy ===
/** `print_colored_message` in main_client.c: a received line whose text
    has a `]` after its first `[` is shown in the colour of the name
    between them; any other line is shown as it is. */
module Display {
  import opened Options
  import opened CText
  import opened Colors
  import opened Relay

  /** The name between the first `[` and the first `]`, when that `]`
      comes after that `[`. */
  function ExtractName(msg: string): Option<string>
  {
    match (IndexOf(msg, '['), IndexOf(msg, ']'))
    case (Some(a), Some(b)) => if b > a then Some(msg[a + 1..b]) else None
    case _ => None
  }

  /** `name` sits between a `[` at position `a` and the `]` right after it,
      with no `[` before position `a` and no `]` before that closing one. */
  predicate NameAt(msg: string, a: nat, name: string) {
    && a + |name| + 1 < |msg|
    && msg[a] == '['
    && msg[a + 1..a + 1 + |name|] == name
    && msg[a + |name| + 1] == ']'
    && '[' !in msg[..a]
    && ']' !in msg[..a + |name| + 1]
  }

  /** The extracted name is exactly the text strictly between the first
      `[` and the first `]`, whenever that `]` follows that `[`. */
  lemma ExtractNameIff(msg: string, name: string)
    ensures ExtractName(msg) == Some(name) <==> exists a: nat :: NameAt(msg, a, name)
  {
    if ExtractName(msg) == Some(name) {
      var a := IndexOf(msg, '[').value;
      var b := IndexOf(msg, ']').value;
      assert msg[a + 1..b] == name;
      assert NameAt(msg, a, name);
    }
    if a: nat :| NameAt(msg, a, name) {
      var b := a + |name| + 1;
      IndexOfIs(msg, '[', a);
      IndexOfIs(msg, ']', b);
    }
  }


  /** Reading back the server's `"[%s] %s\n"` line gives the sender's name,
      for every name without a `]` and every message. */
  lemma ExtractChatName(name: string, message: string)
    requires ']' !in name
    ensures ExtractName(ChatFormat(name, message)) == Some(name)
  {
    var line := ChatFormat(name, message);
    assert line[..|name| + 1] == "[" + name;
    assert line[..0] == [];
    assert NameAt(line, 0, name);
    ExtractNameIff(line, name);
  }

  /** How one received line is shown. */
  datatype Shown = Colored(color: Color, line: string) | Plain(text: string)

  /** One pass of the receive loop: the C string in the buffer, shown in the
      sender's colour (cut at its first newline) or as it is.  The buffer
      holds at most 511 received bytes so that it stays NUL-terminated,
      and an extracted name fits `username[50]`. */
  function ShowMessage(t: seq<UserColor>, buffer: string): (r: (Shown, seq<UserColor>))
    requires |buffer| < 512
    requires ExtractName(CString(buffer)).Some? ==> |ExtractName(CString(buffer)).value| < 50
    ensures var msg := CString(buffer);
            && (r.0.Colored? <==> ExtractName(msg).Some?)
            && (r.0.Colored? ==>
                  && (r.0.color, r.1) == GetColor(t, ExtractName(msg).value)
                  && r.0.line <= msg && '\n' !in r.0.line
                  && (|r.0.line| < |msg| ==> msg[|r.0.line|] == '\n'))
            && (r.0.Plain? ==> r.0.text == msg && r.1 == t)
  {
    var msg := CString(buffer);
    match ExtractName(msg)
    case None => (Plain(msg), t)
    case Some(name) =>
      var (c, t') := GetColor(t, name);
      (Colored(c, CutAt(msg, '\n')), t')
  }

  /** A received text lacking `[` or `]` has no name and is shown as it
      is, with the colour table unchanged. */
  lemma NoNameWithoutBrackets(t: seq<UserColor>, buffer: string)
    requires |buffer| < 512
    requires '[' !in CString(buffer) || ']' !in CString(buffer)
    ensures ExtractName(CString(buffer)) == None
    ensures ShowMessage(t, buffer) == (Plain(CString(buffer)), t)
  {
  }

  /** A chat line relayed by the server is shown whole, minus its newline,
      in the colour the table gives its sender. */
  lemma ShowChatLine(t: seq<UserColor>, name: string, message: string)
    requires ']' !in name && '\0' !in name && '\0' !in message
    requires '\n' !in name && '\n' !in message
    requires |name| < 50 && |name| + |message| + 4 < 512
    ensures var r := ShowMessage(t, ChatFormat(name, message));
            r == (Colored(GetColor(t, name).0, "[" + name + "] " + message), GetColor(t, name).1)
  {
    var line := ChatFormat(name, message);
    ExtractChatName(name, message);
    assert CString(line) == line;
    assert line == ("[" + name + "] " + message) + "\n";
    assert CutAt(line, '\n') == "[" + name + "] " + message;
  }
}

=== FILE: net.dfy ===
/** What the connection plumbing hands to, and takes from, the sequential
    logic.  Sockets themselves are left out: a received chunk and an
    outgoing action are plain values. */
module Net {

  /** The result of one `recv` call: `Closed` stands for a return value
      `n <= 0` (peer closed or error), `Data` for the `n > 0` bytes read. */
  datatype Recv = Closed | Data(bytes: string)

  /** One effect on a socket: a `send` of some text, or a `close`. */
  datatype Action = Send(sock: int, text: string) | Close(sock: int)
}

=== FILE: options.dfy ===
/** The optional value used wherever the C code returns a NULL pointer or
    "not found" instead of a result. */
module Options {

  datatype Option<+T> = None | Some(value: T)
}

=== FILE: registry.dfy ===
/** The server's session registry: the ordered list of connected clients
    (`head`..`tail` in main_server.c) and the per-room occupancy table
    `room_user_counts` kept beside it.  Every call runs under the one
    server mutex, so each operation is an atomic state transformer. */
module Registry {
  import opened Options

  /** `MAX_ROOMS`: rooms 1..100 have a counter. */
  const MaxRooms: nat := 100

  /** One `USR` record.  The address is the text `inet_ntoa` would give. */
  datatype Client = Client(sock: int, name: string, room: int, addr: string)

  /** The server's shared state: the client list in insertion order, the
      counter table (index `r - 1` for room `r`) and the `next_room` counter. */
  datatype State = State(clients: seq<Client>, counts: seq<int>, nextRoom: int)

  /** The state at process start: no clients, all counters 0, `next_room` 1. */
  function Initial(): (s: State)
    ensures s.clients == [] && |s.counts| == MaxRooms && s.nextRoom == 1
    ensures forall i :: 0 <= i < MaxRooms ==> s.counts[i] == 0
  {
    State([], seq(MaxRooms, _ => 0), 1)
  }

  /** The number of records in `cs` whose room is `r`. */
  function Occupancy(cs: seq<Client>, r: int): nat
  {
    if |cs| == 0 then 0 else (if cs[0].room == r then 1 else 0) + Occupancy(cs[1..], r)
  }

  /** The counter table agrees with the list: each room's counter is the
      number of records in that room. */
  predicate CountsMatch(s: State) {
    && |s.counts| == MaxRooms
    && forall r :: 1 <= r <= MaxRooms ==> s.counts[r - 1] == Occupancy(s.clients, r)
  }

  /** `add_tail`: link a new record at the tail, then bump its room's
      counter when the room is within 1..MAX_ROOMS. */
  function AddTail(s: State, sock: int, addr: string, name: string, room: int): (r: State)
    requires |s.counts| == MaxRooms
    ensures r.clients == s.clients + [Client(sock, name, room, addr)]
    ensures |r.counts| == MaxRooms
    ensures forall i :: 0 <= i < MaxRooms ==>
              r.counts[i] == s.counts[i] + (if i == room - 1 then 1 else 0)
    ensures r.nextRoom == s.nextRoom
  {
    var counts := if 1 <= room <= MaxRooms then s.counts[room - 1 := s.counts[room - 1] + 1] else s.counts;
    s.(clients := s.clients + [Client(sock, name, room, addr)], counts := counts)
  }

  /** The position of the first record with socket `sock`, as the walk
      from `head` finds it. */
  function FirstIndex(cs: seq<Client>, sock: int): (r: Option<nat>)
    ensures r.None? <==> forall j :: 0 <= j < |cs| ==> cs[j].sock != sock
    ensures r.Some? ==> r.value < |cs| && cs[r.value].sock == sock
    ensures r.Some? ==> forall j :: 0 <= j < r.value ==> cs[j].sock != sock
  {
    if |cs| == 0 then None
    else if cs[0].sock == sock then Some(0)
    else
      match FirstIndex(cs[1..], sock)
      case None => None
      case Some(i) => Some(i + 1)
  }

  /** `remove_client`: unlink the first record with socket `sock` and
      decrement its room's counter; nothing happens when no record matches. */
  function RemoveClient(s: State, sock: int): (r: State)
    requires |s.counts| == MaxRooms
    ensures |r.counts| == MaxRooms && r.nextRoom == s.nextRoom
    ensures FirstIndex(s.clients, sock).None? ==> r == s
    ensures FirstIndex(s.clients, sock).Some? ==>
              var i := FirstIndex(s.clients, sock).value;
              && r.clients == s.clients[..i] + s.clients[i + 1..]
              && forall k :: 0 <= k < MaxRooms ==>
                   r.counts[k] == s.counts[k] - (if k == s.clients[i].room - 1 then 1 else 0)
  {
    match FirstIndex(s.clients, sock)
    case None => s
    case Some(i) =>
      var room := s.clients[i].room;
      var counts := if 1 <= room <= MaxRooms then s.counts[room - 1 := s.counts[room - 1] - 1] else s.counts;
      s.(clients := s.clients[..i] + s.clients[i + 1..], counts := counts)
  }

  /** Occupancy distributes over concatenation of lists. */
  lemma {:induction false} OccupancyAppend(a: seq<Client>, b: seq<Client>, r: int)
    ensures Occupancy(a + b, r) == Occupancy(a, r) + Occupancy(b, r)
    decreases |a|
  {
    if |a| > 0 {
      assert (a + b)[1..] == a[1..] + b;
      OccupancyAppend(a[1..], b, r);
    } else {
      assert a + b == b;
    }
  }

  /** Unlinking record `i` lowers the occupancy of its room by one and
      leaves every other room's occupancy alone. */
  lemma OccupancyUnlink(cs: seq<Client>, i: nat, r: int)
    requires i < |cs|
    ensures Occupancy(cs[..i] + cs[i + 1..], r) == Occupancy(cs, r) - (if cs[i].room == r then 1 else 0)
  {
    assert cs == cs[..i] + ([cs[i]] + cs[i + 1..]);
    OccupancyAppend(cs[..i], [cs[i]] + cs[i + 1..], r);
    OccupancyAppend([cs[i]], cs[i + 1..], r);
    OccupancyAppend(cs[..i], cs[i + 1..], r);
  }

  /** `add_tail` keeps the counters equal to the list occupancy, whatever
      the room number (an out-of-range room is neither counted nor listed). */
  lemma AddTailKeepsCounts(s: State, sock: int, addr: string, name: string, room: int)
    requires CountsMatch(s)
    ensures CountsMatch(AddTail(s, sock, addr, name, room))
  {
    var s' := AddTail(s, sock, addr, name, room);
    forall r | 1 <= r <= MaxRooms
      ensures s'.counts[r - 1] == Occupancy(s'.clients, r)
    {
      OccupancyAppend(s.clients, [Client(sock, name, room, addr)], r);
    }
  }

  /** `remove_client` keeps the counters equal to the list occupancy. */
  lemma RemoveClientKeepsCounts(s: State, sock: int)
    requires CountsMatch(s)
    ensures CountsMatch(RemoveClient(s, sock))
  {
    var s' := RemoveClient(s, sock);
    match FirstIndex(s.clients, sock)
    case None =>
    case Some(i) =>
      forall r | 1 <= r <= MaxRooms
        ensures s'.counts[r - 1] == Occupancy(s'.clients, r)
      {
        OccupancyUnlink(s.clients, i, r);
      }
  }

  /** A registry call made under the mutex: an `add_tail` or a `remove_client`. */
  datatype Op = Add(sock: int, addr: string, name: string, room: int) | Remove(sock: int)

  /** The state after the calls `ops`, made one at a time in order. */
  function ApplyOps(s: State, ops: seq<Op>): (r: State)
    requires |s.counts| == MaxRooms
    ensures |r.counts| == MaxRooms
    decreases |ops|
  {
    if |ops| == 0 then s
    else
      var s' := match ops[0]
        case Add(sock, addr, name, room) => AddTail(s, sock, addr, name, room)
        case Remove(sock) => RemoveClient(s, sock);
      ApplyOps(s', ops[1..])
  }

  /** Under any sequence of `add_tail` and `remove_client` calls, each
      room's counter equals the number of listed clients in that room. */
  lemma {:induction false} ApplyOpsKeepsCounts(s: State, ops: seq<Op>)
    requires CountsMatch(s)
    ensures CountsMatch(ApplyOps(s, ops))
    decreases |ops|
  {
    if |ops| > 0 {
      match ops[0]
      case Add(sock, addr, name, room) =>
        AddTailKeepsCounts(s, sock, addr, name, room);
        ApplyOpsKeepsCounts(AddTail(s, sock, addr, name, room), ops[1..]);
      case Remove(sock) =>
        RemoveClientKeepsCounts(s, sock);
        ApplyOpsKeepsCounts(RemoveClient(s, sock), ops[1..]);
    }
  }
}

=== FILE: rooms.dfy ===
/** Room bookkeeping in `thread_main` of main_server.c: how the room
    selector a client sends is read, and the room listing built from the
    counter table. */
module Rooms {
  import opened CText
  import opened Decimal
  import opened Registry

  /** What the server does with a room selector. */
  datatype Selector =
    | ListRooms          // -2: send the listing, close
    | NewRoom            // any other negative value: take `next_room`
    | BadRoom            // 0 or above MAX_ROOMS: error, close
    | JoinRoom(room: int) // 1..MAX_ROOMS: join that room, occupied or not

  /** The branches of `thread_main` on the received selector.  Only the
      range is checked: an empty room in 1..MAX_ROOMS is joined. */
  function Classify(selector: int): (r: Selector)
    ensures r == ListRooms <==> selector == -2
    ensures r == NewRoom <==> selector < 0 && selector != -2
    ensures r == BadRoom <==> selector == 0 || selector > MaxRooms
    ensures r.JoinRoom? <==> 1 <= selector <= MaxRooms
    ensures r.JoinRoom? ==> r.room == selector
  {
    if selector == -2 then ListRooms
    else if selector < 0 then NewRoom
    else if selector <= 0 || selector > MaxRooms then BadRoom
    else JoinRoom(selector)
  }

  /** One line of the listing: a room and its head count. */
  datatype RoomEntry = RoomEntry(room: int, people: int)

  /** The rooms the listing loop reports, scanning counters `from`..99:
      those with a positive counter, in increasing room order. */
  function OccupiedFrom(counts: seq<int>, from: nat): (r: seq<RoomEntry>)
    requires |counts| == MaxRooms && from <= MaxRooms
    ensures forall e :: e in r ==> from + 1 <= e.room <= MaxRooms && e.people == counts[e.room - 1] > 0
    ensures forall i :: from <= i < MaxRooms && counts[i] > 0 ==> RoomEntry(i + 1, counts[i]) in r
    ensures forall j, k :: 0 <= j < k < |r| ==> r[j].room < r[k].room
    decreases MaxRooms - from
  {
    if from == MaxRooms then []
    else
      var rest := OccupiedFrom(counts, from + 1);
      if counts[from] > 0 then [RoomEntry(from + 1, counts[from])] + rest else rest
  }

  function OccupiedRooms(counts: seq<int>): seq<RoomEntry>
    requires |counts| == MaxRooms
  {
    OccupiedFrom(counts, 0)
  }

  /** `"Room %d: %d people\n"`. */
  function EntryLine(e: RoomEntry): string {
    "Room " + IntToString(e.room) + ": " + IntToString(e.people) + " people\n"
  }

  function EntryLines(es: seq<RoomEntry>): string
    decreases |es|
  {
    if |es| == 0 then "" else EntryLine(es[0]) + EntryLines(es[1..])
  }

  const ListingHeader: string := "Available chat rooms:\n"
  const NoRooms: string := "No rooms available. " + "Type 'new' to create one.\n"

  /** The counter scan finds nothing exactly when no counter is positive. */
  lemma NoneOccupied(counts: seq<int>)
    requires |counts| == MaxRooms
    ensures |OccupiedRooms(counts)| == 0 <==> forall i :: 0 <= i < MaxRooms ==> counts[i] <= 0
  {
    var entries := OccupiedRooms(counts);
    if |entries| > 0 {
      assert entries[0] in entries;
    }
  }

  /** The text sent in reply to selector -2. */
  function ListingText(counts: seq<int>): (r: string)
    requires |counts| == MaxRooms
    ensures r == NoRooms <==> forall i :: 0 <= i < MaxRooms ==> counts[i] <= 0
    ensures r != NoRooms ==> r == ListingHeader + EntryLines(OccupiedRooms(counts))
  {
    NoneOccupied(counts);
    var entries := OccupiedRooms(counts);
    if |entries| == 0 then NoRooms
    else
      var r := ListingHeader + EntryLines(entries);
      assert r[0] != NoRooms[0];
      r
  }

  /** With the counters in step with the list, the listing names exactly
      the rooms 1..MAX_ROOMS that some client occupies, each with its
      number of clients, in increasing room order. */
  lemma ListingMatchesRegistry(s: State)
    requires CountsMatch(s)
    ensures forall e :: e in OccupiedRooms(s.counts) ==>
              1 <= e.room <= MaxRooms && e.people == Occupancy(s.clients, e.room) > 0
    ensures forall r :: 1 <= r <= MaxRooms && Occupancy(s.clients, r) > 0 ==>
              RoomEntry(r, Occupancy(s.clients, r)) in OccupiedRooms(s.counts)
    ensures ListingText(s.counts) == NoRooms <==>
              forall r :: 1 <= r <= MaxRooms ==> Occupancy(s.clients, r) == 0
  {
    forall r | 1 <= r <= MaxRooms && Occupancy(s.clients, r) > 0
      ensures RoomEntry(r, Occupancy(s.clients, r)) in OccupiedRooms(s.counts)
    {
      assert s.counts[r - 1] > 0;
    }
    if forall r :: 1 <= r <= MaxRooms ==> Occupancy(s.clients, r) == 0 {
      forall i | 0 <= i < MaxRooms
        ensures s.counts[i] <= 0
      {
        assert s.counts[(i + 1) - 1] == Occupancy(s.clients, i + 1);
      }
    }
  }

  /** A received chat buffer as broadcast: the C string it holds, cut at
      its first newline. */
  function ChatText(chunk: string): (r: string)
    ensures r <= chunk && '\n' !in r && '\0' !in r
    ensures |r| < |chunk| ==> chunk[|r|] == '\n' || chunk[|r|] == '\0'
  {
    var c := CString(chunk);
    var r := CutAt(c, '\n');
    assert |r| < |c| ==> chunk[|r|] == c[|r|];
    r
  }

  /** The chat loop as written: every `recv` reuses the same 256-byte
      buffer, overwriting only its first `n` bytes, and the cut looks for the
      first newline or NUL in the whole buffer.  Returns the broadcast text
      and the buffer left for the next read: the reused buffer with a NUL
      written where the text stops.  (A buffer with neither would make the
      C scan run past its end; here the scan stops at the end.) */
  function ChatRound(buffer: string, chunk: string): (r: (string, string))
    requires |buffer| == 256 && 0 < |chunk| <= 255
    ensures var b := chunk + buffer[|chunk|..];
            && r.0 <= b && '\n' !in r.0 && '\0' !in r.0
            && (|r.0| < |b| ==> b[|r.0|] == '\n' || b[|r.0|] == '\0')
            && |r.1| == |b|
            && (forall k :: 0 <= k < |b| && k != |r.0| ==> r.1[k] == b[k])
            && (|r.0| < |b| ==> r.1[|r.0|] == '\0')
  {
    var b := chunk + buffer[|chunk|..];
    var text := ChatText(b);
    (text, if |text| < |b| then b[|text| := '\0'] else b)
  }

  /** Whatever the 256 bytes of the uninitialised buffer hold, a `hello`
      line is broadcast as `hello`, and a following read carrying `hi`
      without its newline is broadcast as `hillo`: the tail of the earlier
      message leaks out.  The corrected `ChatText` gives `hi`. */
  lemma StaleBytesLeak(buffer: string)
    requires |buffer| == 256
    ensures var first := ChatRound(buffer, "hello\n");
            && first.0 == "hello"
            && ChatRound(first.1, "hi").0 == "hillo"
    ensures ChatText("hi") == "hi"
  {
    var b := "hello\n" + buffer[6..];
    assert b[5] == '\n' && b[..5] == "hello";
    CutAtStop(b, 5);
    var first := ChatRound(buffer, "hello\n");
    assert first.1 == b[5 := '\0'];
    var b2 := "hi" + first.1[2..];
    assert b2[5] == '\0' && b2[..5] == "hillo";
    CutAtStop(b2, 5);
    assert '\0' !in "hi" && '\n' !in "hi";
  }

  /** The cut stops at the first newline or NUL. */
  lemma CutAtStop(s: string, k: nat)
    requires k < |s| && (s[k] == '\n' || s[k] == '\0')
    requires '\n' !in s[..k] && '\0' !in s[..k]
    ensures ChatText(s) == s[..k]
  {
    var c := CString(s);
    if s[k] == '\0' {
      IndexOfIs(s, '\0', k);
      assert c == s[..k];
    } else {
      assert forall j :: 0 <= j <= k ==> s[j] != '\0' by {
        forall j | 0 <= j <= k
          ensures s[j] != '\0'
        {
          if j < k {
            assert s[..k][j] == s[j];
          }
        }
      }
      assert |c| > k;
      assert c[..k] == s[..k];
      IndexOfIs(c, '\n', k);
    }
  }

  /** For a read that carries its own newline, the loop as written and the
      corrected `ChatText` broadcast the same text. */
  lemma ChatRoundWithNewline(buffer: string, chunk: string)
    requires |buffer| == 256 && 0 < |chunk| <= 255 && '\n' in chunk
    ensures ChatRound(buffer, chunk).0 == ChatText(chunk)
  {
    var b := chunk + buffer[|chunk|..];
    var i := IndexOf(chunk, '\n').value;
    var k := match IndexOf(chunk, '\0')
      case Some(z) => if z < i then z else i
      case None => i;
    assert '\n' !in chunk[..k] && '\0' !in chunk[..k] by {
      assert chunk[..k] == chunk[..i][..k];
      if IndexOf(chunk, '\0').Some? {
        var z := IndexOf(chunk, '\0').value;
        assert chunk[..k] == chunk[..z][..k];
      }
    }
    assert b[..k] == chunk[..k] && b[k] == chunk[k];
    CutAtStop(chunk, k);
    CutAtStop(b, k);
  }

  const RoomError: string := "Error: Room does not exist\n"

  /** `"Connected to %s with new room number %d\n"`. */
  function Welcome(addr: string, room: int): string {
    "Connected to " + addr + " with new room number " + IntToString(room) + "\n"
  }

  /** `"%s (%s) joined the chat room!\n"`. */
  function JoinNotice(name: string, addr: string): string {
    name + " (" + addr + ") joined the chat room!\n"
  }

  /** `"%s (%s) left the room!\n"`. */
  function LeaveNotice(name: string, addr: string): string {
    name + " (" + addr + ") left the room!\n"
  }
}

=== FILE: server.dfy ===
/** The per-connection logic of `thread_main` in main_server.c as atomic
    steps over the shared server state: a connection's admission, each
    chat line it sends, and its disconnection.  Threads are left out; the
    mutex makes every registry call one step. */
module Server {
  import opened Net
  import opened CText
  import opened Registry
  import opened Relay
  import opened Rooms

  /** What a connection's thread does next. */
  datatype Event =
      /** An accepted socket sends its room selector, then its user name
          (the `recv` result). */
    | Connect(sock: int, addr: string, selector: int, uname: Recv)
      /** One `recv` of up to 255 bytes on an admitted connection. */
    | Chat(sock: int, chunk: string)
      /** The chat loop ends; `name` and `addr` are the thread's own copies. */
    | Disconnect(sock: int, name: string, addr: string)

  datatype Outcome = Outcome(server: State, out: seq<Action>)

  /** The state every step keeps: counters in step with the list, `next_room`
      positive, every registered socket an `accept` result. */
  predicate Inv(s: State) {
    && CountsMatch(s)
    && s.nextRoom >= 1
    && forall c :: c in s.clients ==> c.sock >= 0
  }

  /** The conditions under which the C code has defined behaviour:
      `accept` returned a socket; a user name read is non-empty and, where
      it is terminated in place (`uname[n]`), shorter than 50 bytes; `active_rooms[next_room - 1]`
      is within its 100 entries; a chat `recv` returns 1..255 bytes. */
  predicate EventOk(s: State, e: Event) {
    match e
    case Connect(sock, _, selector, uname) =>
      && sock >= 0
      && (uname.Data? ==> 0 < |uname.bytes|)
      && (uname.Data? && (Classify(selector).NewRoom? || Classify(selector).JoinRoom?) ==> |uname.bytes| < 50)
      && (Classify(selector) == NewRoom ==> s.nextRoom <= MaxRooms)
    case Chat(_, chunk) => 0 < |chunk| <= 255
    case Disconnect(_, _, _) => true
  }

  /** Admission once the room is settled: a closed connection is dropped,
      otherwise the welcome line is sent, the record is added at the tail
      and the join notice is broadcast from socket -1. */
  function Admit(s: State, sock: int, addr: string, room: int, uname: Recv): (r: Outcome)
    requires |s.counts| == MaxRooms
    ensures |r.server.counts| == MaxRooms && r.server.nextRoom == s.nextRoom
  {
    match uname
    case Closed => Outcome(s, [Close(sock)])
    case Data(bytes) =>
      var name := CString(bytes);
      var s' := AddTail(s, sock, addr, name, room);
      var welcome := if room >= 1 then [Send(sock, Welcome(addr, room))] else [];
      Outcome(s', welcome + Broadcast(s'.clients, -1, JoinNotice(name, addr)))
  }

  /** One step of a connection's thread. */
  function Step(s: State, e: Event): (r: Outcome)
    requires |s.counts| == MaxRooms
    ensures |r.server.counts| == MaxRooms
    ensures r.server.nextRoom == s.nextRoom + (if e.Connect? && Classify(e.selector) == NewRoom then 1 else 0)
  {
    match e
    case Connect(sock, addr, selector, uname) =>
      (match Classify(selector)
       case ListRooms => Outcome(s, [Send(sock, ListingText(s.counts)), Close(sock)])
       case BadRoom => Outcome(s, [Send(sock, RoomError), Close(sock)])
       case NewRoom => Admit(s.(nextRoom := s.nextRoom + 1), sock, addr, s.nextRoom, uname)
       case JoinRoom(room) => Admit(s, sock, addr, room, uname))
    case Chat(sock, chunk) =>
      Outcome(s, Broadcast(s.clients, sock, ChatText(chunk)))
    case Disconnect(sock, uname, addr) =>
      var notice := Broadcast(s.clients, -1, LeaveNotice(uname, addr));
      Outcome(RemoveClient(s, sock), notice + [Close(sock)])
  }

  /** Every event of `es` has defined behaviour in the state it meets. */
  predicate RunOk(s: State, es: seq<Event>)
    decreases |es|
  {
    && |s.counts| == MaxRooms
    && (|es| > 0 ==> EventOk(s, es[0]) && RunOk(Step(s, es[0]).server, es[1..]))
  }

  /** The events `es` taken one at a time, with all their effects in order. */
  function Run(s: State, es: seq<Event>): (r: Outcome)
    requires RunOk(s, es)
    ensures |r.server.counts| == MaxRooms && r.server.nextRoom >= s.nextRoom
    decreases |es|
  {
    if |es| == 0 then Outcome(s, [])
    else
      var first := Step(s, es[0]);
      var rest := Run(first.server, es[1..]);
      Outcome(rest.server, first.out + rest.out)
  }

  /** The room numbers handed out by the new-room branch during `es`. */
  function Allocations(s: State, es: seq<Event>): seq<int>
    requires RunOk(s, es)
    decreases |es|
  {
    if |es| == 0 then []
    else
      var mine := if es[0].Connect? && Classify(es[0].selector) == NewRoom then [s.nextRoom] else [];
      mine + Allocations(Step(s, es[0]).server, es[1..])
  }

  /** Each step keeps the server invariant. */
  lemma StepKeepsInv(s: State, e: Event)
    requires Inv(s) && EventOk(s, e)
    ensures Inv(Step(s, e).server)
  {
    match e
    case Connect(sock, addr, selector, uname) =>
      match Classify(selector) {
      case ListRooms =>
      case BadRoom =>
      case NewRoom =>
        if uname.Data? {
          AddTailKeepsCounts(s.(nextRoom := s.nextRoom + 1), sock, addr, CString(uname.bytes), s.nextRoom);
        }
      case JoinRoom(room) =>
        if uname.Data? {
          AddTailKeepsCounts(s, sock, addr, CString(uname.bytes), room);
        }
      }
    case Chat(_, _) =>
    case Disconnect(sock, _, _) =>
      RemoveClientKeepsCounts(s, sock);
      var r := RemoveClient(s, sock);
      match FirstIndex(s.clients, sock)
      case None =>
      case Some(i) =>
        forall c | c in r.clients
          ensures c.sock >= 0
        {
          var k :| 0 <= k < |r.clients| && r.clients[k] == c;
          if k < i {
            assert c == s.clients[k];
          } else {
            assert c == s.clients[k + 1];
          }
        }
  }

  /** The invariant holds after any run of well-defined events: at every
      point each room's counter is the number of clients in that room. */
  lemma {:induction false} RunKeepsInv(s: State, es: seq<Event>)
    requires Inv(s) && RunOk(s, es)
    ensures Inv(Run(s, es).server)
    decreases |es|
  {
    if |es| > 0 {
      StepKeepsInv(s, es[0]);
      RunKeepsInv(Step(s, es[0]).server, es[1..]);
    }
  }

  predicate StrictlyIncreasing(a: seq<int>) {
    forall j, k :: 0 <= j < k < |a| ==> a[j] < a[k]
  }

  predicate Between(a: seq<int>, lo: int, hi: int) {
    forall x :: x in a ==> lo <= x < hi
  }

  /** New rooms are numbered in strictly increasing order, from the
      `next_room` value at the start of the run up to (not including) its
      value at the end: no number is handed out twice. */
  lemma {:induction false} AllocationsIncrease(s: State, es: seq<Event>)
    requires RunOk(s, es)
    ensures StrictlyIncreasing(Allocations(s, es))
    ensures Between(Allocations(s, es), s.nextRoom, Run(s, es).server.nextRoom)
    decreases |es|
  {
    if |es| > 0 {
      var s1 := Step(s, es[0]).server;
      AllocationsIncrease(s1, es[1..]);
      var rest := Allocations(s1, es[1..]);
      var a := Allocations(s, es);
      var last := Run(s, es).server.nextRoom;
      assert last == Run(s1, es[1..]).server.nextRoom;
      assert Between(rest, s1.nextRoom, last);
      if es[0].Connect? && Classify(es[0].selector) == NewRoom {
        assert s1.nextRoom == s.nextRoom + 1;
        assert a == [s.nextRoom] + rest;
        forall j, k | 0 <= j < k < |a|
          ensures a[j] < a[k]
        {
          assert a[k] == rest[k - 1] && rest[k - 1] in rest;
          if j > 0 {
            assert a[j] == rest[j - 1];
          }
        }
        forall x | x in a
          ensures s.nextRoom <= x < last
        {
          if x != s.nextRoom {
            assert x in rest;
          }
        }
      } else {
        assert s1.nextRoom == s.nextRoom;
        assert a == rest;
      }
    }
  }

  /** What a new connection gets, by selector value, as the code decides
      it: -2 gets the listing and is closed; 0 or a number above 100 gets
      the error line and is closed; any other negative value takes
      `next_room` (even when the user name never arrives); 1..100 is joined
      whether or not anyone is in that room and whatever name others there
      use.  Only the welcome line is sent: the join notice reaches nobody. */
  lemma AdmissionOutcomes(s: State, sock: int, addr: string, selector: int, uname: Recv)
    requires Inv(s) && EventOk(s, Connect(sock, addr, selector, uname))
    ensures var r := Step(s, Connect(sock, addr, selector, uname));
            && (selector == -2 ==> r == Outcome(s, [Send(sock, ListingText(s.counts)), Close(sock)]))
            && (selector == 0 || selector > MaxRooms ==> r == Outcome(s, [Send(sock, RoomError), Close(sock)]))
            && (selector < 0 && selector != -2 && uname.Closed? ==>
                  r == Outcome(s.(nextRoom := s.nextRoom + 1), [Close(sock)]))
            && (uname.Data? && ((selector < 0 && selector != -2) || 1 <= selector <= MaxRooms) ==>
                  var room := if selector < 0 then s.nextRoom else selector;
                  && r.server.clients == s.clients + [Client(sock, CString(uname.bytes), room, addr)]
                  && r.out == [Send(sock, Welcome(addr, room))])
  {
    if uname.Data? && ((selector < 0 && selector != -2) || 1 <= selector <= MaxRooms) {
      var room := if selector < 0 then s.nextRoom else selector;
      var s0 := if selector < 0 then s.(nextRoom := s.nextRoom + 1) else s;
      var s' := AddTail(s0, sock, addr, CString(uname.bytes), room);
      NoticeReachesNobody(s'.clients, JoinNotice(CString(uname.bytes), addr));
    }
  }

  /** A chat line goes out as `"[name] line\n"` with the sender's
      registered name and the received text cut at its first newline, never
      to the sending socket; from an unregistered socket nothing goes out.
      The registry is untouched. */
  lemma ChatOutcome(s: State, sock: int, chunk: string)
    requires Inv(s) && EventOk(s, Chat(sock, chunk))
    ensures var r := Step(s, Chat(sock, chunk));
            && r.server == s
            && (FindSender(s.clients, sock).None? ==> r.out == [])
            && forall a :: a in r.out ==>
                 && FindSender(s.clients, sock).Some?
                 && a == Send(a.sock, ChatFormat(FindSender(s.clients, sock).value.name, ChatText(chunk)))
                 && a.sock != sock
  {
    var r := Step(s, Chat(sock, chunk));
    if FindSender(s.clients, sock).Some? {
      BroadcastTargets(s.clients, sock, ChatText(chunk), sock);
      forall a | a in r.out
        ensures a == Send(a.sock, ChatFormat(FindSender(s.clients, sock).value.name, ChatText(chunk)))
      {
        var k :| 0 <= k < |r.out| && r.out[k] == a;
      }
    }
  }

  /** A disconnect removes the connection's record and closes the socket;
      the leave notice reaches nobody. */
  lemma DisconnectOutcome(s: State, sock: int, uname: string, addr: string)
    requires Inv(s)
    ensures Step(s, Disconnect(sock, uname, addr)) == Outcome(RemoveClient(s, sock), [Close(sock)])
  {
    NoticeReachesNobody(s.clients, LeaveNotice(uname, addr));
  }
}
